=== FILE: README.md ===
# Pong over a peer-to-peer link: the game rules in Dafny

This project models the rule logic of a two-player browser Pong game. The
two players are connected directly, peer to peer. One endpoint, the
**host**, is the authority: it runs the ball physics and the scoring. The
other endpoint, the **client**, predicts the ball locally and then
reconciles its prediction with the host's periodic **snapshots** of the game
state. The client reports its own paddle to the host in throttled
**input** messages.

The whole game is the `PongGame` class in `script.js`. Without the canvas,
the DOM, the PeerJS transport and the timers, it becomes five modules, one
file each:

- `pong.dfy` (`Pong`) holds the field constants and the game state.
  - The datatypes are `Ball`, `GameState`, `Role`, `Conn`, `Message` and `Peer`.
  - `Valid` is the state invariant that every endpoint keeps.
- `physics.dfy` (`Physics`) models one sub-step of `updatePhysics`, in order:
  - Euler flight;
  - wall reflection;
  - the forgiving paddle hit tests, with the ×1.05 acceleration capped at 600 px/s;
  - host-only scoring with `resetBall`;
  - the delayed relaunch along one of the four diagonals.
- `substep.dfy` (`SubStep`) models how one frame's elapsed time is capped at
  0.5 s and cut into sub-steps of at most 16 ms.
- `sync.dfy` (`Sync`) models the protocol:
  - `lerp`;
  - the client's snapshot reconciliation;
  - role filtering in `handleData`;
  - the 33 ms input throttle;
  - the full-state broadcast.
- `session.dfy` (`Session`) models one endpoint driven by events:
  - pointer moves (`handleMove` with its clamp);
  - incoming messages;
  - animation frames: the `loop` method, written both as a recursive function and as the source's `while` loop;
  - the host's 30 Hz broadcast timer and the relaunch timer;
  - connection events: the duplicate-connection guard, `joinGame` and `startGame`.

  It also proves properties of whole event traces:
  - the invariant holds throughout, as long as the peer sends well-formed
    messages;
  - for traces without a `Join`, a host's scores never go down, the role
    stays fixed, and every further inbound connection is refused;
  - input reports are spaced at least 33 ms apart.

  A `Join` turns a host into a client, whose next snapshot may lower its
  scores (script.js:89-96, script.js:171-172).

Geometry is `real`: 1.05, 0.016, 0.1 and 0.2 are exact. `Date.now()` is an
`int` number of milliseconds. `performance.now()` is a `real` number of
milliseconds. `Math.random()` becomes two booleans.

Where the code's behaviour may be surprising, the model follows the code:

- The host's `handleMove` also calls `sendInput` (script.js:54-67).
  - So the host sends input reports too, and the client ignores them (script.js:145-146).
  - Input reports are therefore not client-only.
- The snap threshold compares the squared distance with `150 * 150`. That is a
  150-pixel distance.
- The status has only two values, `waiting` and `playing`.
  - A closed connection reloads the page instead of entering an "ended" state.
- The duplicate-connection guard refuses an inbound connection whenever any
  connection object exists, open or not.
  - `joinGame` has no such guard.
- The throttle drops a report that comes within 33 ms of the previous one.
  It never sends it later.
  - If the pointer then stops, the host keeps the older paddle position until the next report that passes the gate.
- Sub-step independence holds only for flights that meet no wall, paddle or
  goal during the frame (`FreeFlight`).
  - The code checks for contacts only at the end of each sub-step, so in general the result depends on how the frame is cut.

## Model

| member | source | states |
|---|---|---|
| `Pong.Initial` | script.js:15-22 | The starting state satisfies the invariant, has zero scores and is waiting. |
| `Pong.InitialPeer` | script.js:24-28 | A fresh endpoint has no role and no connection, and its state satisfies the invariant. |
| `Physics.Advance` | script.js:196-197 | Free flight keeps the velocity, and flying for zero seconds leaves the ball where it is. Its partner is `AdvanceAdditive`. |
| `Physics.AdvanceAdditive` | script.js:196-197 | Euler flight is additive: flying `a` seconds and then `c` seconds is the same as flying `a + c` seconds. |
| `Physics.Walls` | script.js:199-206 | The ball ends in `[0, 485]`, keeps its speed magnitude, and at the top wall `dy >= 0`, at the bottom `dy <= 0`; a ball strictly inside is untouched. |
| `Physics.HitsLeft` | script.js:212-215 | A ball in the strip in front of the left paddle that overlaps the paddle's own height always hits, since the test is widened by 20 px of forgiveness. A hitting ball is clear of the right paddle's strip. |
| `Physics.HitsRight` | script.js:222-225 | A ball in the strip in front of the right paddle that overlaps the paddle's own height always hits. A hitting ball is clear of the left paddle's strip. |
| `Physics.BounceLeft` | script.js:216-218 | A left hit gives `dx = min(abs(dx)*1.05, 600) >= 0`, strictly faster below the ceiling, pins `x` to 20, and keeps `y` and `dy`. |
| `Physics.BounceRight` | script.js:226-228 | A right hit gives `dx = -min(abs(dx)*1.05, 600) <= 0`, strictly faster below the ceiling, pins `x` to 765, and keeps `y` and `dy`. |
| `Physics.Paddles` | script.js:211-229 | The left test runs first, and a ball pinned to the left face is out of the right paddle's reach, so at most one bounce happens per step. |
| `Physics.Collide` | script.js:196-229 | After flight, walls and paddles, the ball is between the walls and its vertical speed magnitude is kept. Its horizontal velocity changes only when the ball, after flight and walls, is in a paddle's hit box, and then the ball is pinned to a paddle face. |
| `Physics.ResetBall` | script.js:244-248 | The ball is centred at (400, 250) and frozen, and nothing else changes. |
| `Physics.UpdatePhysics` | script.js:195-242 | After any step the ball is in `[0, 485]` vertically. Wall contact points `dy` back into the field. Paddles and status are unchanged. A goal happens exactly when the ball is on the host and beyond ±20 px of a side. A goal adds exactly one point to the correct side and leaves the ball frozen at the centre. Without a goal, scores are unchanged. |
| `Physics.ScoresMonotone` | script.js:231-241 | Scores never drop, one step adds at most one goal, and a non-host step never changes a score. |
| `Physics.UpdatePhysicsPreservesValid` | script.js:195-242 | A step keeps paddles in range and the ball between the walls. The velocity stays frozen or diagonal, with `abs(dy) = 400` and `abs(dx)` in `[400, 600]`. |
| `Physics.NoTunnelLeft` | script.js:211-219 | A ball in front of the left paddle, under the speed ceiling, with a sub-step of at most 16 ms and the paddle within reach, never ends the step behind the paddle face. |
| `Physics.NoTunnelRight` | script.js:221-229 | The same as `NoTunnelLeft`, for the right paddle. |
| `Physics.Relaunch` | script.js:251-255 | The position is kept, each velocity component has magnitude 400, and its sign is given by the corresponding coin flip. |
| `Physics.RelaunchCoversDiagonals` | script.js:252-255 | Each of the four diagonals `(±400, ±400)` comes from some pair of coin flips. |
| `SubStep.Chunks` | script.js:129-134 | The steps are positive and at most 0.016 s. All but the last are exactly 0.016 s. They sum to the remaining time, and their count is the ceiling of `remaining / 0.016`. |
| `SubStep.Schedule` | script.js:126-134 | A frame time of zero or less runs no steps. Otherwise the steps lie in `(0, 0.016]` and sum exactly to `min(dt, 0.5)`. There are never more than 32 of them. |
| `SubStep.TenthOfASecond` | script.js:126-134 | A 100 ms frame runs 7 sub-steps summing to 0.1 s. |
| `Sync.Lerp` | script.js:178-180 | A factor of 0 gives `start` and a factor of 1 gives `end`. The remaining gap to `end` is `(1 - amt)` times the original gap. |
| `Sync.LerpBetween` | script.js:178-180 | For `amt` in `[0, 1]` the result lies between `start` and `end`. |
| `Sync.Reconcile` | script.js:146-172 | A frozen snapshot is taken exactly. A squared distance over 22500 snaps to the snapshot; otherwise each coordinate becomes `0.9*local + 0.1*snapshot`. Velocity and scores are copied. `paddle1Y` becomes `0.8*old + 0.2*snapshot`. `paddle2Y` and status are untouched. |
| `Sync.ReconcileConverges` | script.js:150-170 | The squared distance to the snapshot drops to 0 on a snap, or to 0.81 of its old value on a blend, so it never grows. The host paddle's gap shrinks to 0.8 of its old value. |
| `Sync.ReconcileIgnoresClientFields` | script.js:146-172 | The snapshot's `paddle2Y` and status have no effect on the client. |
| `Sync.ReconcilePreservesValid` | script.js:150-172 | A valid snapshot merged into a valid prediction gives a valid state. |
| `Sync.HandleData` | script.js:140-176 | The host never takes ball, scores or its own paddle from a message. An input report sets only `paddle2Y`, and a snapshot changes nothing. The client never takes its own paddle from a message and ignores input reports. |
| `Sync.HandleDataPreservesValid` | script.js:140-176 | A well-formed message keeps a valid state valid. |
| `Sync.SendInput` | script.js:182-189 | A report goes out only when `now - lastInputTime >= 33` and the connection is open. A report that passes the gate sets `lastInputTime := now`, even when the connection is closed. A report that fails the gate changes nothing. The clock never goes back. |
| `Sync.SendGameState` | script.js:191-193 | A snapshot of the current state goes out exactly when the connection is open. |
| `Session.ClampPaddle` | script.js:59-61 | The result lies in `[0, 400]`. An in-range value is kept, and out-of-range values go to the nearer bound. |
| `Session.HandleMove` | script.js:54-67 | The move is ignored unless the status is playing. The host writes `paddle1Y` and the other roles write `paddle2Y`, with the clamped `inputY - 50`. Nothing else in the game state changes. When the throttle's 33 ms gate passes, the input clock becomes the move's time even if nothing can be sent. Otherwise the clock is unchanged. Any report sent carries that clamped value. |
| `Session.AcceptConnection` | script.js:82-85 | An inbound connection is refused exactly when a connection already exists. Otherwise the endpoint becomes host. |
| `Session.JoinGame` | script.js:89-96 | Joining makes the endpoint a client with a pending connection. It leaves the game state alone and does not stop a broadcast interval started earlier as host. |
| `Session.StartGame` | script.js:105-118 | On open, the status becomes playing and the frame clock restarts. Nothing else in the game state changes. The broadcast interval is running afterwards exactly when it was running before or the endpoint is a host. |
| `Session.PhysicsStep` | script.js:231-249 | A sub-step sends something only when the host scores and the connection is open. What it sends is the frozen, centred state. |
| `Session.RunSteps` | script.js:130-134 | Over any run of sub-steps, paddles, status and role are unchanged and scores never drop. A non-host's scores never change and it sends nothing. Every message sent is a frozen snapshot, and there is at most one per goal. |
| `Session.RunFrame` | script.js:120-134 | A frame does nothing unless the game is playing. Otherwise it restarts the frame clock, never lowers a score, never changes a client's score, and sends only frozen snapshots. |
| `Session.Loop` | script.js:120-134 | The source's `while` loop computes exactly the state and messages of the recursive frame definition. |
| `Session.StepThrough` | script.js:129-134 | Subtracting `min(remaining, 0.016)` until nothing is left runs exactly the sub-steps of `Chunks(remaining)`. |
| `Session.ChunkStep` | script.js:130-133 | Consuming `remaining` is one step of `min(remaining, 0.016)` followed by consuming the rest. |
| `Session.Tick` | script.js:114-117 | The 30 Hz timer sends the current state exactly when the interval has been started and the connection is open. It does not look at the current role, because the interval's callback `sendGameState` (script.js:191-193) only checks the connection. |
| `Session.Launch` | script.js:251-257 | The relaunch timer sends the ball off diagonally and broadcasts the new state when the connection is open. |
| `Session.Apply` | script.js:54-118 | On every event the input clock never goes back, and only a move can advance it. A move that sends a report comes at least 33 ms after the clock's previous value, and sets the clock to the move's time. Moves send only input reports, and every other event sends only snapshots. |
| `Session.RunStepsPreservesValid` | script.js:195-249 | Any run of sub-steps keeps the state invariant. |
| `Session.ApplyPreservesValid` | script.js:54-257 | Every event keeps the state invariant, provided incoming messages are well-formed. |
| `Session.RunPreservesValid` | script.js:54-257 | Over any trace of events, provided the peer sends well-formed messages, paddles stay in `[0, 400]` and the ball stays in `[0, 485]` vertically. The velocity stays frozen or diagonal within the speed bounds. |
| `Session.RunStepsSendsValid` | script.js:244-249 | Every snapshot sent on a goal satisfies the invariant. |
| `Session.ApplySendsValid` | script.js:182-193 | Everything an endpoint with a valid state sends is well-formed, which is what the other endpoint's invariant needs. |
| `Session.HostScoresMonotone` | script.js:231-241 | On a host, no trace of events without a join lowers either score or changes the role. |
| `Session.SingleOpponent` | script.js:82-85 | Once a connection exists, and without a join, the role never changes, a connection remains, and every further inbound connection is refused. |
| `Session.InputClockMonotone` | script.js:184-188 | Along any trace the input clock (`lastInputTime`) never goes back: its value after `a` events is at most its value after `b >= a` events. |
| `Session.FirstReportSpaced` | script.js:184-188 | Any move in a trace that sends an input report happens at least 33 ms after the input clock's value before the trace. |
| `Session.InputReportsSpaced` | script.js:184-188 | For any two moves `i < j` of a trace that both send an input report, move `j` happens at least 33 ms after move `i`. |
| `Session.OpenFieldStep` | script.js:195-241 | A sub-step that ends in the open field is pure flight. It causes no wall, paddle or goal event and sends nothing. |
| `Session.FreeFlight` | script.js:126-134 | A flight that starts and ends in the open field gives the same result however it is cut into sub-steps. |
| `Session.FrameScenario` | script.js:126-134 | From (400, 250) at (400, 400) px/s, a 100 ms frame runs 7 sub-steps and ends at (440, 290). That is the same as one 100 ms step. |
| `Session.NoBroadcastWithoutHosting` | script.js:82-118 | An endpoint that is neither a host nor broadcasting, over any trace without an inbound connection, never starts the interval and never sends on a tick. |
| `Session.JoinAfterHosting` | script.js:89-118 | After hosting, opening, joining another game and opening again, the endpoint is a playing client with an open connection, and a tick still sends a full snapshot. |
| `Session.GoalScenario` | script.js:231-257 | A host ball 25 px past the left side scores for the right player, freezes at the centre and is broadcast. The relaunch then sends it off at (±400, ±400). |

## Left out

- Drawing and the DOM are not modelled. This covers `draw`, `updateScoreUI`, the `initDOM` buttons, the clipboard, `alert` and the touch/mouse listener wiring. They are presentation only.
- The PeerJS transport is not modelled. This covers `initPeer`, the peer `open` and `error` handlers, `peer.connect` and `conn.send`, which are calls into a foreign library.
  - A send is an outgoing `Message` in an `Outcome`.
  - The connection is the `Conn` value.
- The connection `close` handler reloads the page, discarding every bit of state. It is not modelled as an event.
- Timers are events in the model. `requestAnimationFrame` becomes `Frame`, `setInterval` becomes `Tick`, and `setTimeout` in `resetBall` becomes `LaunchTimer`.
  - The model does not restrict when `LaunchTimer` may occur. The source only schedules it one second after a goal.
  - Every `startGame` also starts another animation loop, so after a join the page runs two loops. The model's `Frame` stands for one frame of the game, whatever the number of loops.
- Session.JoinGame: a join is modelled as replacing the old connection outright. In the source the old connection's `open`, `data` and `close` handlers stay attached (script.js:98-100). A late `open` on the old connection starts the game while the new connection is still pending, and the model's `Opened` event would mark the current connection open instead.
- `Math.random()` becomes two booleans. The slight bias of `Math.random() > 0.5` is not modelled.
- `Date.now()` and `performance.now()` are parameters.
- `getBoundingClientRect` scaling in `handleMove` is not modelled. The model takes the already-scaled `inputY`.
- Messages of any type other than `INPUT` and `STATE` cannot be expressed, because `Message` has only the two kinds. Both roles ignore other types anyway.
- IEEE-754 rounding is out of scope: the model uses exact reals. For example, the source's repeated `updateDt -= step` accumulates rounding, which the exact schedule does not.
- FreeFlight: sub-step independence is proved only for flights that stay in the open field. With a wall, paddle or goal during the frame, the code checks for contact only at sub-step ends, so the outcome can depend on the partition.

=== FILE: physics.dfy ===
/**
 One physics sub-step of the game: Euler integration, wall reflection, the
 forgiving paddle hit tests, and (on the host only) scoring with a reset of
 the ball. Also the delayed relaunch that follows a reset.
 */
module Physics {
  import opened Pong

  /** The ball after flying freely for `dt` seconds. */
  function Advance(b: Ball, dt: real): (r: Ball)
    ensures r.dx == b.dx && r.dy == b.dy
    ensures dt == 0.0 ==> r == b
  {
    Ball(b.x + b.dx * dt, b.y + b.dy * dt, b.dx, b.dy)
  }

  /** Free flight is additive: flying `a` then `c` seconds is flying `a + c`. */
  lemma AdvanceAdditive(b: Ball, a: real, c: real)
    ensures Advance(Advance(b, a), c) == Advance(b, a + c)
  {
    var m := Advance(b, a);
    assert b.dx * a + b.dx * c == b.dx * (a + c);
    assert b.dy * a + b.dy * c == b.dy * (a + c);
    assert m.x + m.dx * c == b.x + b.dx * (a + c);
    assert m.y + m.dy * c == b.y + b.dy * (a + c);
  }

  /** Clamp the ball to the top and bottom walls, pointing `dy` back into
      the field when it touches one. */
  function Walls(b: Ball): (r: Ball)
    ensures 0.0 <= r.y <= BallFloor
    ensures r.x == b.x && r.dx == b.dx
    ensures Abs(r.dy) == Abs(b.dy)
    ensures r.y == 0.0 ==> r.dy >= 0.0
    ensures r.y == BallFloor ==> r.dy <= 0.0
    ensures b.y <= 0.0 ==> r.y == 0.0
    ensures b.y >= BallFloor ==> r.y == BallFloor
    ensures 0.0 < b.y < BallFloor ==> r == b
  {
    var top := if b.y <= 0.0 then b.(y := 0.0, dy := Abs(b.dy)) else b;
    if top.y + BallSize >= CanvasHeight then top.(y := BallFloor, dy := -Abs(top.dy)) else top
  }

  /** The left paddle's hit box: the ball overlaps the strip in front of
      the paddle and its vertical reach, widened by the forgiveness. A ball
      in the strip that genuinely overlaps the paddle always hits, and a
      hitting ball is clear of the right paddle's strip. The strip in front
      of a paddle ends at the face where a hit pins the ball. */
  predicate HitsLeft(b: Ball, paddle1Y: real)
    ensures && b.x < LeftFace && b.x + BallSize > 0.0
            && b.y + BallSize >= paddle1Y && b.y <= paddle1Y + PaddleHeight
            ==> HitsLeft(b, paddle1Y)
    ensures HitsLeft(b, paddle1Y) ==> b.x <= RightFace
  {
    && b.x < LeftFace
    && b.x + BallSize > 0.0
    && b.y + BallSize >= paddle1Y - Forgiveness
    && b.y <= paddle1Y + PaddleHeight + Forgiveness
  }

  /** The mirror image for the right paddle. */
  predicate HitsRight(b: Ball, paddle2Y: real)
    ensures && b.x > RightFace && b.x < CanvasWidth
            && b.y + BallSize >= paddle2Y && b.y <= paddle2Y + PaddleHeight
            ==> HitsRight(b, paddle2Y)
    ensures HitsRight(b, paddle2Y) ==> b.x >= LeftFace
  {
    && b.x > RightFace
    && b.x < CanvasWidth
    && b.y + BallSize >= paddle2Y - Forgiveness
    && b.y <= paddle2Y + PaddleHeight + Forgiveness
  }

  /** A left hit sends the ball rightwards, faster by the acceleration
      factor up to the ceiling, from just in front of the paddle. */
  function BounceLeft(b: Ball): (r: Ball)
    ensures 0.0 <= r.dx <= MaxSpeed
    ensures r.dx == Min(Abs(b.dx) * Acceleration, MaxSpeed)
    ensures b.dx != 0.0 && Abs(b.dx) < MaxSpeed ==> r.dx > Abs(b.dx)
    ensures r.x == LeftFace
    ensures r.y == b.y && r.dy == b.dy
  {
    var dx := Abs(b.dx) * Acceleration;
    b.(dx := if dx > MaxSpeed then MaxSpeed else dx, x := LeftFace)
  }

  /** A right hit sends the ball leftwards, faster up to the ceiling. */
  function BounceRight(b: Ball): (r: Ball)
    ensures -MaxSpeed <= r.dx <= 0.0
    ensures -r.dx == Min(Abs(b.dx) * Acceleration, MaxSpeed)
    ensures b.dx != 0.0 && Abs(b.dx) < MaxSpeed ==> -r.dx > Abs(b.dx)
    ensures r.x == RightFace
    ensures r.y == b.y && r.dy == b.dy
  {
    var dx := -Abs(b.dx) * Acceleration;
    b.(dx := if dx < -MaxSpeed then -MaxSpeed else dx, x := RightFace)
  }

  /** Both paddle tests, left first. A ball pinned to the left face is out
      of the right paddle's reach, so at most one of them fires. */
  function Paddles(b: Ball, paddle1Y: real, paddle2Y: real): (r: Ball)
    ensures HitsLeft(b, paddle1Y) ==> r == BounceLeft(b)
    ensures !HitsLeft(b, paddle1Y) && HitsRight(b, paddle2Y) ==> r == BounceRight(b)
    ensures !HitsLeft(b, paddle1Y) && !HitsRight(b, paddle2Y) ==> r == b
  {
    var afterLeft := if HitsLeft(b, paddle1Y) then BounceLeft(b) else b;
    if HitsRight(afterLeft, paddle2Y) then BounceRight(afterLeft) else afterLeft
  }

  /** The ball after one sub-step, before the scoring rule looks at it. It
      is between the walls with its vertical speed kept, and its horizontal
      velocity only changes on a paddle hit, which pins it to a paddle face. */
  function Collide(s: GameState, dt: real): (r: Ball)
    ensures 0.0 <= r.y <= BallFloor
    ensures Abs(r.dy) == Abs(s.ball.dy)
    ensures var w := Walls(Advance(s.ball, dt));
            r.dx != s.ball.dx ==> HitsLeft(w, s.paddle1Y) || HitsRight(w, s.paddle2Y)
    ensures r.dx != s.ball.dx ==> r.x == LeftFace || r.x == RightFace
  {
    Paddles(Walls(Advance(s.ball, dt)), s.paddle1Y, s.paddle2Y)
  }

  predicate PastLeft(b: Ball) {
    b.x < -ScoreMargin
  }

  predicate PastRight(b: Ball) {
    b.x > CanvasWidth + ScoreMargin
  }

  /** Centre the ball and freeze it; nothing else changes. */
  function ResetBall(s: GameState): (r: GameState)
    ensures r.ball.dx == 0.0 && r.ball.dy == 0.0
    ensures r.ball.x == CanvasWidth / 2.0 && r.ball.y == CanvasHeight / 2.0
    ensures r.(ball := s.ball) == s
  {
    s.(ball := Centre)
  }

  /** The outcome of one physics sub-step: the new state, and whether a goal
      reset the ball (which makes the host broadcast a frozen snapshot). */
  datatype StepResult = StepResult(state: GameState, reset: bool)

  /** One sub-step of `dt` seconds. Only the host scores. */
  function UpdatePhysics(s: GameState, role: Role, dt: real): (r: StepResult)
    // the ball never leaves the field vertically, and a wall contact points it back in
    ensures 0.0 <= r.state.ball.y <= BallFloor
    ensures r.state.ball.y == 0.0 ==> r.state.ball.dy >= 0.0
    ensures r.state.ball.y == BallFloor ==> r.state.ball.dy <= 0.0
    // physics never moves a paddle or changes the status
    ensures r.state.paddle1Y == s.paddle1Y && r.state.paddle2Y == s.paddle2Y
    ensures r.state.status == s.status
    // a goal is exactly a host-side ball beyond a side margin
    ensures r.reset <==> role == Host && (PastLeft(Collide(s, dt)) || PastRight(Collide(s, dt)))
    ensures !r.reset ==> r.state.ball == Collide(s, dt)
    ensures !r.reset ==> r.state.score1 == s.score1 && r.state.score2 == s.score2
    ensures r.reset ==> r.state.ball == Centre
    ensures r.reset && PastLeft(Collide(s, dt)) ==> r.state.score2 == s.score2 + 1 && r.state.score1 == s.score1
    ensures r.reset && !PastLeft(Collide(s, dt)) ==> r.state.score1 == s.score1 + 1 && r.state.score2 == s.score2
  {
    var moved := s.(ball := Collide(s, dt));
    if role == Host && PastLeft(moved.ball) then
      StepResult(ResetBall(moved.(score2 := moved.score2 + 1)), true)
    else if role == Host && PastRight(moved.ball) then
      StepResult(ResetBall(moved.(score1 := moved.score1 + 1)), true)
    else
      StepResult(moved, false)
  }

  /** Scores never go down, and a step adds at most one goal in total. */
  lemma ScoresMonotone(s: GameState, role: Role, dt: real)
    ensures UpdatePhysics(s, role, dt).state.score1 >= s.score1
    ensures UpdatePhysics(s, role, dt).state.score2 >= s.score2
    ensures UpdatePhysics(s, role, dt).state.score1 + UpdatePhysics(s, role, dt).state.score2
            <= s.score1 + s.score2 + 1
    ensures role != Host ==>
              && UpdatePhysics(s, role, dt).state.score1 == s.score1
              && UpdatePhysics(s, role, dt).state.score2 == s.score2
  {
  }

  /** The step keeps the state invariant: paddles and ball stay in range and
      the velocity stays frozen or diagonal within the speed bounds. */
  lemma UpdatePhysicsPreservesValid(s: GameState, role: Role, dt: real)
    requires Valid(s)
    ensures Valid(UpdatePhysics(s, role, dt).state)
  {
  }

  /** How far the ball can fly in one sub-step under the speed ceiling. */
  lemma StepReach(b: Ball, dt: real)
    requires Abs(b.dx) <= MaxSpeed && 0.0 <= dt <= StepSize
    ensures b.x - MaxSpeed * StepSize <= Advance(b, dt).x <= b.x + MaxSpeed * StepSize
  {
    var v := b.dx;
    assert MaxSpeed == 600.0 && StepSize == 0.016;
    if v >= 0.0 {
      assert 0.0 <= v * dt <= 600.0 * dt;
    } else {
      assert 0.0 <= (-v) * dt <= 600.0 * dt;
    }
  }

  /** A ball in front of the left paddle, with the paddle in reach after the
      step, cannot tunnel behind it while speeds stay under the ceiling and
      sub-steps under 16 ms: it either stays in front or is pinned to the
      paddle face. */
  lemma NoTunnelLeft(s: GameState, dt: real)
    requires s.ball.x >= LeftFace && Abs(s.ball.dx) <= MaxSpeed
    requires 0.0 <= dt <= StepSize
    requires var w := Walls(Advance(s.ball, dt));
             w.y + BallSize >= s.paddle1Y - Forgiveness && w.y <= s.paddle1Y + PaddleHeight + Forgiveness
    ensures Collide(s, dt).x >= LeftFace
  {
    StepReach(s.ball, dt);
    var w := Walls(Advance(s.ball, dt));
    assert w.x > -BallSize;
    if !HitsLeft(w, s.paddle1Y) {
      assert w.x >= LeftFace;
    }
  }

  /** The mirror image for the right paddle. */
  lemma NoTunnelRight(s: GameState, dt: real)
    requires s.ball.x <= RightFace && Abs(s.ball.dx) <= MaxSpeed
    requires 0.0 <= dt <= StepSize
    requires var w := Walls(Advance(s.ball, dt));
             w.y + BallSize >= s.paddle2Y - Forgiveness && w.y <= s.paddle2Y + PaddleHeight + Forgiveness
    ensures Collide(s, dt).x <= RightFace
  {
    StepReach(s.ball, dt);
    var w := Walls(Advance(s.ball, dt));
    assert w.x < CanvasWidth;
    if !HitsLeft(w, s.paddle1Y) && !HitsRight(w, s.paddle2Y) {
      assert w.x <= RightFace;
    }
  }

  /** The delayed relaunch after a goal: the ball keeps its position and
      leaves along one of the four diagonals at the launch speed. */
  function Relaunch(s: GameState, rightward: bool, downward: bool): (r: GameState)
    ensures r.ball.x == s.ball.x && r.ball.y == s.ball.y
    ensures Abs(r.ball.dx) == BallSpeed && Abs(r.ball.dy) == BallSpeed
    ensures r.ball.dx > 0.0 <==> rightward
    ensures r.ball.dy > 0.0 <==> downward
    ensures r.(ball := s.ball) == s
  {
    var dirX := if rightward then 1.0 else -1.0;
    var dirY := if downward then 1.0 else -1.0;
    s.(ball := s.ball.(dx := dirX * BallSpeed, dy := dirY * BallSpeed))
  }

  /** Every diagonal is reachable by some pair of coin flips. */
  lemma RelaunchCoversDiagonals(s: GameState, dx: real, dy: real)
    requires Abs(dx) == BallSpeed && Abs(dy) == BallSpeed
    ensures exists rightward: bool, downward: bool ::
              Relaunch(s, rightward, downward).ball == s.ball.(dx := dx, dy := dy)
  {
    var rightward, downward := dx > 0.0, dy > 0.0;
    assert Relaunch(s, rightward, downward).ball == s.ball.(dx := dx, dy := dy);
  }

  lemma RelaunchPreservesValid(s: GameState, rightward: bool, downward: bool)
    requires Valid(s)
    ensures Valid(Relaunch(s, rightward, downward))
  {
  }
}

=== FILE: pong.dfy ===
/**
 The shared vocabulary of the two-player Pong game: field geometry, the game
 state that host and client both keep, the two message kinds they exchange,
 and the per-endpoint bookkeeping (role, connection, clocks).

 All geometry is `real`: the model states the rules of the game, not the
 rounding of IEEE-754 doubles.
 */
module Pong {

  // Field geometry, in pixels.
  const CanvasWidth: real := 800.0
  const CanvasHeight: real := 500.0
  const PaddleWidth: real := 15.0
  const PaddleHeight: real := 100.0
  const BallSize: real := 15.0

  /** Launch speed along each axis, pixels per second. */
  const BallSpeed: real := 400.0
  /** Horizontal speed ceiling after paddle acceleration. */
  const MaxSpeed: real := 600.0
  /** Each paddle hit multiplies the horizontal speed by this factor. */
  const Acceleration: real := 1.05
  /** Extra vertical reach of a paddle's hit box, above and below. */
  const Forgiveness: real := 20.0
  /** Gap between a paddle's face and the pinned ball position after a hit. */
  const PaddleGap: real := 5.0
  /** How far past a side the ball must travel before it counts as a goal. */
  const ScoreMargin: real := 20.0
  /** Longest single physics sub-step, in seconds. */
  const StepSize: real := 0.016

  /** Highest top-edge offset a ball or paddle may have. */
  const BallFloor: real := CanvasHeight - BallSize
  const PaddleFloor: real := CanvasHeight - PaddleHeight

  /** Where a hit pins the ball: just in front of the left or right paddle. */
  const LeftFace: real := PaddleWidth + PaddleGap
  const RightFace: real := CanvasWidth - PaddleWidth - BallSize - PaddleGap

  function Abs(v: real): real {
    if v < 0.0 then -v else v
  }

  function Min(a: real, b: real): real {
    if a <= b then a else b
  }

  datatype Option<T> = None | Some(value: T)

  /** Top-left corner `(x, y)` and velocity `(dx, dy)` in pixels per second. */
  datatype Ball = Ball(x: real, y: real, dx: real, dy: real)

  datatype Status = Waiting | Playing

  datatype GameState = GameState(
    ball: Ball,
    paddle1Y: real,   // left paddle, driven by the host
    paddle2Y: real,   // right paddle, driven by the client
    score1: nat,
    score2: nat,
    status: Status)

  /** `Unassigned` is the role before any connection exists; every branch of
      the game that is not taken for `Host` is taken for it too. */
  datatype Role = Unassigned | Host | Client

  /** The data connection: none yet, created but not open, or open. */
  datatype Conn = NoConn | Connecting | Open

  datatype Message = Input(y: real) | State(snapshot: GameState)

  /** Everything one endpoint keeps: the game state plus its role, its
      connection, the two clocks it remembers (frame time in milliseconds
      as a real, last input time in whole milliseconds), and whether the
      host's 30 Hz broadcast interval has been started. That interval is
      never cleared, so it outlives a later change of role. */
  datatype Peer = Peer(
    state: GameState,
    role: Role,
    conn: Conn,
    lastFrameTime: real,
    lastInputTime: int,
    broadcasting: bool)

  /** An endpoint after handling one event, with the messages it sent. */
  datatype Outcome = Outcome(peer: Peer, out: seq<Message>)

  /** The ball sits still in the middle of the field. */
  const Centre: Ball := Ball(CanvasWidth / 2.0, CanvasHeight / 2.0, 0.0, 0.0)

  /** The state a fresh page starts from. */
  function Initial(): (s: GameState)
    ensures Valid(s) && s.status == Waiting
    ensures s.score1 == 0 && s.score2 == 0
  {
    GameState(
      Ball(CanvasWidth / 2.0, CanvasHeight / 2.0, BallSpeed, BallSpeed),
      CanvasHeight / 2.0 - PaddleHeight / 2.0,
      CanvasHeight / 2.0 - PaddleHeight / 2.0,
      0, 0, Waiting)
  }

  function InitialPeer(now: real): (p: Peer)
    ensures p.role == Unassigned && p.conn == NoConn && Valid(p.state)
    ensures !p.broadcasting && p.lastInputTime == 0
  {
    Peer(Initial(), Unassigned, NoConn, now, 0, false)
  }

  predicate PaddleInRange(y: real) {
    0.0 <= y <= PaddleFloor
  }

  /** A ball waiting to be relaunched after a goal. */
  predicate Frozen(b: Ball) {
    b.dx == 0.0 && b.dy == 0.0
  }

  /** The ball is either frozen after a goal, or moves diagonally at the
      launch speed vertically and between launch speed and ceiling
      horizontally. */
  predicate VelocityShape(b: Ball) {
    || Frozen(b)
    || (Abs(b.dy) == BallSpeed && BallSpeed <= Abs(b.dx) <= MaxSpeed)
  }

  /** The invariant every endpoint keeps on its game state. */
  predicate Valid(s: GameState) {
    && PaddleInRange(s.paddle1Y)
    && PaddleInRange(s.paddle2Y)
    && 0.0 <= s.ball.y <= BallFloor
    && VelocityShape(s.ball)
  }

  /** What a well-behaved peer puts on the wire. */
  predicate ValidMessage(m: Message) {
    match m
    case Input(y) => PaddleInRange(y)
    case State(snap) => Valid(snap)
  }
}

=== FILE: session.dfy ===
/**
 One endpoint of a game session, driven by the events that reach it: pointer
 moves, messages from the peer, animation frames, the host's broadcast timer,
 the relaunch timer after a goal, and the connection events. Also the frame
 loop that runs physics in sub-steps, and properties of whole event traces.
 */
module Session {
  import opened Pong
  import opened Physics
  import opened SubStep
  import opened Sync

  datatype Event =
    | Move(inputY: real, nowMs: int)        // pointer at `inputY`, already in canvas pixels
    | Data(msg: Message)                     // a message from the peer
    | Frame(now: real)                       // an animation frame at `now` ms
    | Tick                                   // the host's 30 Hz broadcast timer
    | LaunchTimer(rightward: bool, downward: bool)  // one second after a goal
    | Inbound                                // a peer connects to us
    | Join                                   // we connect to a host
    | Opened(now: real)                      // the data connection opened at `now` ms

  /** Keep a paddle's top edge inside the field. */
  function ClampPaddle(v: real): (r: real)
    ensures PaddleInRange(r)
    ensures PaddleInRange(v) ==> r == v
    ensures v < 0.0 ==> r == 0.0
    ensures v > PaddleFloor ==> r == PaddleFloor
  {
    var low := if v < 0.0 then 0.0 else v;
    if low > PaddleFloor then PaddleFloor else low
  }

  /** The pointer moved: centre the local paddle on it (clamped), then report
      it through the throttle. Ignored unless the game is being played. */
  function HandleMove(p: Peer, inputY: real, now: int): (o: Outcome)
    ensures p.state.status != Playing ==> o == Outcome(p, [])
    ensures o.peer.role == p.role && o.peer.conn == p.conn && o.peer.lastFrameTime == p.lastFrameTime
    ensures o.peer.state.ball == p.state.ball && o.peer.state.status == p.state.status
    ensures o.peer.state.score1 == p.state.score1 && o.peer.state.score2 == p.state.score2
    ensures p.state.status == Playing && p.role == Host ==>
              && o.peer.state.paddle1Y == ClampPaddle(inputY - PaddleHeight / 2.0)
              && o.peer.state.paddle2Y == p.state.paddle2Y
    ensures p.state.status == Playing && p.role != Host ==>
              && o.peer.state.paddle2Y == ClampPaddle(inputY - PaddleHeight / 2.0)
              && o.peer.state.paddle1Y == p.state.paddle1Y
    // the throttle's clock moves whenever the gate passes, sent or not
    ensures p.state.status == Playing && now - p.lastInputTime >= InputInterval ==>
              o.peer.lastInputTime == now
    ensures now - p.lastInputTime < InputInterval ==> o.peer.lastInputTime == p.lastInputTime
    ensures o.out != [] ==> o.out == [Input(ClampPaddle(inputY - PaddleHeight / 2.0))]
    ensures o.out != [] <==>
              p.state.status == Playing && now - p.lastInputTime >= InputInterval && p.conn == Open
  {
    if p.state.status != Playing then Outcome(p, [])
    else
      var newY := ClampPaddle(inputY - PaddleHeight / 2.0);
      var moved := if p.role == Host then p.(state := p.state.(paddle1Y := newY))
                   else p.(state := p.state.(paddle2Y := newY));
      SendInput(moved, newY, now)
  }

  /** An inbound connection: accepted as host if we have no connection yet,
      otherwise refused (`None`) and closed, leaving us untouched. */
  function AcceptConnection(p: Peer): (r: Option<Peer>)
    ensures r.None? <==> p.conn != NoConn
    ensures r.Some? ==> r.value == p.(role := Host, conn := Connecting)
  {
    if p.conn != NoConn then None else Some(p.(role := Host, conn := Connecting))
  }

  /** We connect to a host and become its client. */
  function JoinGame(p: Peer): (q: Peer)
    ensures q.role == Client && q.conn == Connecting
    ensures q.state == p.state
    // a broadcast interval started as host keeps running
    ensures q.broadcasting == p.broadcasting
  {
    p.(role := Client, conn := Connecting)
  }

  /** The connection opened: start playing, restart the frame clock, and on
      a host start the 30 Hz broadcast interval. */
  function StartGame(p: Peer, now: real): (q: Peer)
    ensures q.conn == Open && q.state.status == Playing && q.lastFrameTime == now
    ensures q.role == p.role && q.state.(status := p.state.status) == p.state
    ensures q.broadcasting <==> p.broadcasting || p.role == Host
    ensures q.lastInputTime == p.lastInputTime
  {
    p.(conn := Open, state := p.state.(status := Playing), lastFrameTime := now,
       broadcasting := p.broadcasting || p.role == Host)
  }

  /** One physics sub-step of the endpoint; a goal broadcasts the frozen state. */
  function PhysicsStep(p: Peer, dt: real): (o: Outcome)
    ensures o.peer.(state := p.state) == p
    ensures o.peer.state == UpdatePhysics(p.state, p.role, dt).state
    ensures o.out != [] <==> UpdatePhysics(p.state, p.role, dt).reset && p.conn == Open
    ensures o.out != [] ==> p.role == Host && o.out == [State(o.peer.state)] && o.peer.state.ball == Centre
  {
    var r := UpdatePhysics(p.state, p.role, dt);
    var q := p.(state := r.state);
    Outcome(q, if r.reset then SendGameState(q) else [])
  }

  /** Every message is a snapshot of a freshly reset, frozen ball. */
  predicate FrozenSnapshots(out: seq<Message>) {
    forall i :: 0 <= i < |out| ==> out[i].State? && out[i].snapshot.ball == Centre
  }

  /** Run the given sub-steps in order. */
  function RunSteps(p: Peer, steps: seq<real>): (o: Outcome)
    ensures o.peer.(state := p.state) == p
    ensures o.peer.state.paddle1Y == p.state.paddle1Y && o.peer.state.paddle2Y == p.state.paddle2Y
    ensures o.peer.state.status == p.state.status
    ensures o.peer.state.score1 >= p.state.score1 && o.peer.state.score2 >= p.state.score2
    ensures p.role != Host ==>
              o.peer.state.score1 == p.state.score1 && o.peer.state.score2 == p.state.score2 && o.out == []
    ensures |o.out| <= (o.peer.state.score1 - p.state.score1) + (o.peer.state.score2 - p.state.score2)
    ensures FrozenSnapshots(o.out)
    decreases |steps|
  {
    if steps == [] then Outcome(p, [])
    else
      var first := PhysicsStep(p, steps[0]);
      var rest := RunSteps(first.peer, steps[1..]);
      Outcome(rest.peer, first.out + rest.out)
  }

  /** An animation frame: integrate the time since the last frame, capped
      and cut into sub-steps. Frames stop once the game is not playing. */
  function RunFrame(p: Peer, now: real): (o: Outcome)
    ensures p.state.status != Playing ==> o == Outcome(p, [])
    ensures p.state.status == Playing ==> o.peer.lastFrameTime == now
    ensures o.peer.role == p.role && o.peer.conn == p.conn && o.peer.lastInputTime == p.lastInputTime
    ensures o.peer.state.score1 >= p.state.score1 && o.peer.state.score2 >= p.state.score2
    ensures p.role != Host ==>
              o.peer.state.score1 == p.state.score1 && o.peer.state.score2 == p.state.score2 && o.out == []
    ensures FrozenSnapshots(o.out)
  {
    if p.state.status != Playing then Outcome(p, [])
    else RunSteps(p.(lastFrameTime := now), Schedule((now - p.lastFrameTime) / 1000.0))
  }

  /** The frame loop as the game runs it: consume the capped frame time in
      slices of at most 16 ms, stepping the physics once per slice. */
  method Loop(p: Peer, now: real) returns (q: Peer, out: seq<Message>)
    ensures Outcome(q, out) == RunFrame(p, now)
  {
    if p.state.status != Playing {
      return p, [];
    }
    var dt := (now - p.lastFrameTime) / 1000.0;
    var updateDt := dt;
    if updateDt > MaxFrame {
      updateDt := MaxFrame;
    }
    assert Chunks(updateDt) == Schedule(dt);
    q, out := StepThrough(p.(lastFrameTime := now), updateDt);
  }

  /** The sub-step loop itself: take `min(remaining, 16 ms)`, step, and
      subtract, until nothing is left. */
  method StepThrough(start: Peer, remaining: real) returns (q: Peer, out: seq<Message>)
    ensures Outcome(q, out) == RunSteps(start, Chunks(remaining))
  {
    q, out := start, [];
    var updateDt := remaining;
    ghost var total := RunSteps(start, Chunks(remaining));
    while updateDt > 0.0
      invariant RunSteps(q, Chunks(updateDt)).peer == total.peer
      invariant out + RunSteps(q, Chunks(updateDt)).out == total.out
      decreases Slices(updateDt)
    {
      var step := Min(updateDt, StepSize);
      SlicesDecrease(updateDt);
      ChunkStep(q, updateDt);
      var o := PhysicsStep(q, step);
      ghost var whole := RunSteps(q, Chunks(updateDt)).out;
      ghost var rest := RunSteps(o.peer, Chunks(updateDt - step)).out;
      AppendAssoc(out, o.out, rest);
      q := o.peer;
      out := out + o.out;
      updateDt := updateDt - step;
    }
  }

  lemma AppendAssoc<T>(a: seq<T>, b: seq<T>, c: seq<T>)
    ensures a + (b + c) == (a + b) + c
  {
  }

  /** Running the slices of `remaining` is running the first slice, then
      the slices of what is left. */
  lemma ChunkStep(q: Peer, remaining: real)
    requires remaining > 0.0
    ensures var step := Min(remaining, StepSize);
            var o := PhysicsStep(q, step);
            && RunSteps(q, Chunks(remaining)).peer == RunSteps(o.peer, Chunks(remaining - step)).peer
            && RunSteps(q, Chunks(remaining)).out == o.out + RunSteps(o.peer, Chunks(remaining - step)).out
  {
  }

  /** The 30 Hz timer broadcasts the state. It exists once a game started
      as host, and it checks only the connection, not the current role. */
  function Tick(p: Peer): (out: seq<Message>)
    ensures out != [] <==> p.broadcasting && p.conn == Open
    ensures out != [] ==> out == [State(p.state)]
  {
    if p.broadcasting then SendGameState(p) else []
  }

  /** The relaunch timer: send the ball off diagonally and broadcast. */
  function Launch(p: Peer, rightward: bool, downward: bool): (o: Outcome)
    ensures o.peer == p.(state := Relaunch(p.state, rightward, downward))
    ensures o.out != [] <==> p.conn == Open
    ensures o.out != [] ==> o.out == [State(o.peer.state)]
  {
    var q := p.(state := Relaunch(p.state, rightward, downward));
    Outcome(q, SendGameState(q))
  }

  /** Apply one event to an endpoint. */
  function Apply(p: Peer, e: Event): (o: Outcome)
    // the input clock only moves forward, and only a move that passes the
    // throttle moves it
    ensures o.peer.lastInputTime >= p.lastInputTime
    ensures !e.Move? ==> o.peer.lastInputTime == p.lastInputTime
    ensures e.Move? && o.out != [] ==>
              && e.nowMs >= p.lastInputTime + InputInterval
              && o.peer.lastInputTime == e.nowMs
              && |o.out| == 1 && o.out[0].Input?
    // the broadcast interval, once started by a host, is never stopped
    ensures p.broadcasting ==> o.peer.broadcasting
    ensures o.peer.broadcasting ==> p.broadcasting || (e.Opened? && p.role == Host)
    // input reports come only from moves; everything else sends snapshots
    ensures !e.Move? ==> forall i :: 0 <= i < |o.out| ==> o.out[i].State?
    ensures e.Move? ==> forall i :: 0 <= i < |o.out| ==> o.out[i].Input?
  {
    match e
    case Move(inputY, nowMs) => HandleMove(p, inputY, nowMs)
    case Data(msg) => Outcome(p.(state := HandleData(p.state, p.role, msg)), [])
    case Frame(now) => RunFrame(p, now)
    case Tick => Outcome(p, Tick(p))
    case LaunchTimer(rightward, downward) => Launch(p, rightward, downward)
    case Inbound =>
      (match AcceptConnection(p)
       case None => Outcome(p, [])
       case Some(q) => Outcome(q, []))
    case Join => Outcome(JoinGame(p), [])
    case Opened(now) => Outcome(StartGame(p, now), [])
  }

  /** Apply a sequence of events, collecting everything sent. */
  function Run(p: Peer, evs: seq<Event>): Outcome
    decreases |evs|
  {
    if evs == [] then Outcome(p, [])
    else
      var first := Apply(p, evs[0]);
      var rest := Run(first.peer, evs[1..]);
      Outcome(rest.peer, first.out + rest.out)
  }

  // ----- the state invariant over whole sessions -----

  lemma {:induction false} RunStepsPreservesValid(p: Peer, steps: seq<real>)
    requires Valid(p.state)
    ensures Valid(RunSteps(p, steps).peer.state)
    decreases |steps|
  {
    if steps != [] {
      UpdatePhysicsPreservesValid(p.state, p.role, steps[0]);
      RunStepsPreservesValid(PhysicsStep(p, steps[0]).peer, steps[1..]);
    }
  }

  lemma ApplyPreservesValid(p: Peer, e: Event)
    requires Valid(p.state)
    requires e.Data? ==> ValidMessage(e.msg)
    ensures Valid(Apply(p, e).peer.state)
  {
    match e
    case Data(msg) => HandleDataPreservesValid(p.state, p.role, msg);
    case Frame(now) =>
      if p.state.status == Playing {
        RunStepsPreservesValid(p.(lastFrameTime := now), Schedule((now - p.lastFrameTime) / 1000.0));
      }
    case LaunchTimer(rightward, downward) => RelaunchPreservesValid(p.state, rightward, downward);
    case _ =>
  }

  /** As long as the peer only sends well-formed messages, an endpoint's
      paddles stay on the field, its ball stays between the walls, and its
      ball is either frozen or moving diagonally within the speed bounds. */
  lemma {:induction false} RunPreservesValid(p: Peer, evs: seq<Event>)
    requires Valid(p.state)
    requires forall i :: 0 <= i < |evs| && evs[i].Data? ==> ValidMessage(evs[i].msg)
    ensures Valid(Run(p, evs).peer.state)
    decreases |evs|
  {
    if evs != [] {
      ApplyPreservesValid(p, evs[0]);
      RunPreservesValid(Apply(p, evs[0]).peer, evs[1..]);
    }
  }

  lemma {:induction false} RunStepsSendsValid(p: Peer, steps: seq<real>)
    requires Valid(p.state)
    ensures forall i :: 0 <= i < |RunSteps(p, steps).out| ==> ValidMessage(RunSteps(p, steps).out[i])
    decreases |steps|
  {
    if steps != [] {
      var first := PhysicsStep(p, steps[0]);
      UpdatePhysicsPreservesValid(p.state, p.role, steps[0]);
      RunStepsSendsValid(first.peer, steps[1..]);
      var all := RunSteps(p, steps).out;
      var rest := RunSteps(first.peer, steps[1..]).out;
      assert all == first.out + rest;
      forall i | 0 <= i < |all|
        ensures ValidMessage(all[i])
      {
        if i >= |first.out| {
          assert all[i] == rest[i - |first.out|];
        }
      }
    }
  }

  /** Everything an endpoint sends is well-formed, given a valid state and
      well-formed incoming messages. */
  lemma ApplySendsValid(p: Peer, e: Event)
    requires Valid(p.state)
    requires e.Data? ==> ValidMessage(e.msg)
    ensures forall i :: 0 <= i < |Apply(p, e).out| ==> ValidMessage(Apply(p, e).out[i])
  {
    match e
    case Frame(now) =>
      if p.state.status == Playing {
        RunStepsSendsValid(p.(lastFrameTime := now), Schedule((now - p.lastFrameTime) / 1000.0));
      }
    case LaunchTimer(rightward, downward) => RelaunchPreservesValid(p.state, rightward, downward);
    case _ =>
  }

  // ----- authority: roles, scores and the single opponent -----

  /** On a host, no sequence of events (short of joining another game as a
      client) ever lowers a score or changes the role. */
  lemma {:induction false} HostScoresMonotone(p: Peer, evs: seq<Event>)
    requires p.role == Host
    requires forall i :: 0 <= i < |evs| ==> !evs[i].Join?
    ensures Run(p, evs).peer.role == Host
    ensures Run(p, evs).peer.state.score1 >= p.state.score1
    ensures Run(p, evs).peer.state.score2 >= p.state.score2
    decreases |evs|
  {
    if evs != [] {
      var q := Apply(p, evs[0]).peer;
      assert q.role == Host && q.state.score1 >= p.state.score1 && q.state.score2 >= p.state.score2;
      HostScoresMonotone(q, evs[1..]);
    }
  }

  /** Once an endpoint has a connection, it keeps one, its role never changes
      unless it joins another game itself, and every further inbound
      connection is refused. */
  lemma {:induction false} SingleOpponent(p: Peer, evs: seq<Event>)
    requires p.conn != NoConn
    requires forall i :: 0 <= i < |evs| ==> !evs[i].Join?
    ensures Run(p, evs).peer.conn != NoConn
    ensures Run(p, evs).peer.role == p.role
    ensures AcceptConnection(Run(p, evs).peer).None?
    decreases |evs|
  {
    if evs != [] {
      var q := Apply(p, evs[0]).peer;
      assert q.conn != NoConn && q.role == p.role;
      SingleOpponent(q, evs[1..]);
    }
  }

  // ----- the input throttle over whole sessions -----

  /** The endpoint after the first `k` events of a trace. */
  function PeerAt(p: Peer, evs: seq<Event>, k: nat): Peer
    requires k <= |evs|
  {
    Run(p, evs[..k]).peer
  }

  /** Event `k` of the trace is a move that sends an input report. */
  predicate SendsInputAt(p: Peer, evs: seq<Event>, k: nat)
    requires k < |evs|
  {
    evs[k].Move? && Apply(PeerAt(p, evs, k), evs[k]).out != []
  }

  /** Running one more event continues from where the trace left off. */
  lemma {:induction false} RunSnoc(p: Peer, evs: seq<Event>, e: Event)
    ensures Run(p, evs + [e]).peer == Apply(Run(p, evs).peer, e).peer
    decreases |evs|
  {
    if evs == [] {
      assert evs + [e] == [e];
    } else {
      assert (evs + [e])[1..] == evs[1..] + [e];
      RunSnoc(Apply(p, evs[0]).peer, evs[1..], e);
    }
  }

  /** The endpoint after `k + 1` events is the endpoint after `k` events
      with event `k` applied. */
  lemma PeerAtNext(p: Peer, evs: seq<Event>, k: nat)
    requires k < |evs|
    ensures PeerAt(p, evs, k + 1) == Apply(PeerAt(p, evs, k), evs[k]).peer
  {
    assert evs[..k + 1] == evs[..k] + [evs[k]];
    RunSnoc(p, evs[..k], evs[k]);
  }

  /** The input clock never goes back along a trace. */
  lemma {:induction false} InputClockMonotone(p: Peer, evs: seq<Event>, a: nat, b: nat)
    requires a <= b <= |evs|
    ensures PeerAt(p, evs, a).lastInputTime <= PeerAt(p, evs, b).lastInputTime
    decreases b - a
  {
    if a < b {
      InputClockMonotone(p, evs, a, b - 1);
      PeerAtNext(p, evs, b - 1);
    }
  }

  /** Every input report of a trace comes at least 33 ms after the input
      clock's value before the trace. */
  lemma FirstReportSpaced(p: Peer, evs: seq<Event>, i: nat)
    requires i < |evs| && SendsInputAt(p, evs, i)
    ensures evs[i].nowMs >= p.lastInputTime + InputInterval
  {
    assert evs[..0] == [];
    InputClockMonotone(p, evs, 0, i);
  }

  /** Any two input reports of a trace are at least 33 ms apart: the later
      move's time exceeds the earlier move's by the throttle interval. */
  lemma InputReportsSpaced(p: Peer, evs: seq<Event>, i: nat, j: nat)
    requires i < j < |evs|
    requires SendsInputAt(p, evs, i) && SendsInputAt(p, evs, j)
    ensures evs[j].nowMs >= evs[i].nowMs + InputInterval
  {
    PeerAtNext(p, evs, i);
    InputClockMonotone(p, evs, i + 1, j);
  }

  // ----- sub-stepping -----

  /** The part of the field where no wall, paddle or goal rule can fire. */
  predicate InOpenField(b: Ball) {
    LeftFace <= b.x <= RightFace && 0.0 < b.y < BallFloor
  }

  /** The open field is convex: a straight flight that starts and ends in
      it stays in it. */
  lemma OpenFieldConvex(b: Ball, t: real, total: real)
    requires 0.0 <= t <= total
    requires InOpenField(b) && InOpenField(Advance(b, total))
    ensures InOpenField(Advance(b, t))
  {
    FlightBetween(b, t, total);
  }

  /** Part-way through a straight flight, each coordinate lies between its
      start and end values. */
  lemma FlightBetween(b: Ball, t: real, total: real)
    requires 0.0 <= t <= total
    ensures var m, e := Advance(b, t), Advance(b, total);
            && ((b.x <= m.x <= e.x) || (e.x <= m.x <= b.x))
            && ((b.y <= m.y <= e.y) || (e.y <= m.y <= b.y))
  {
    Between(b.dx, t, total);
    Between(b.dy, t, total);
  }

  lemma Between(v: real, t: real, total: real)
    requires 0.0 <= t <= total
    ensures (0.0 <= v * t <= v * total) || (v * total <= v * t <= 0.0)
  {
    assert v * total - v * t == v * (total - t);
    if v >= 0.0 {
      ProductNonNegative(v, t);
      ProductNonNegative(v, total - t);
    } else {
      ProductNonNegative(-v, t);
      ProductNonNegative(-v, total - t);
    }
  }

  /** In the open field a sub-step is pure flight. */
  lemma OpenFieldStep(p: Peer, dt: real)
    requires InOpenField(Advance(p.state.ball, dt))
    ensures PhysicsStep(p, dt) == Outcome(p.(state := p.state.(ball := Advance(p.state.ball, dt))), [])
  {
  }

  lemma {:induction false} SumNonNegative(steps: seq<real>)
    requires forall i :: 0 <= i < |steps| ==> steps[i] >= 0.0
    ensures Sum(steps) >= 0.0
    decreases |steps|
  {
    if steps != [] {
      SumNonNegative(steps[1..]);
    }
  }

  /** Sub-stepping does not change a flight that stays in the open field:
      the ball ends where one step of the whole duration would put it, and
      nothing is sent. */
  lemma {:induction false} FreeFlight(p: Peer, steps: seq<real>)
    requires forall i :: 0 <= i < |steps| ==> steps[i] >= 0.0
    requires InOpenField(p.state.ball) && InOpenField(Advance(p.state.ball, Sum(steps)))
    ensures RunSteps(p, steps) == Outcome(p.(state := p.state.(ball := Advance(p.state.ball, Sum(steps)))), [])
    decreases |steps|
  {
    if steps == [] {
      assert Advance(p.state.ball, 0.0) == p.state.ball;
    } else {
      var b := p.state.ball;
      var t := steps[0];
      var rest := steps[1..];
      SumNonNegative(rest);
      OpenFieldConvex(b, t, Sum(steps));
      OpenFieldStep(p, t);
      var q := PhysicsStep(p, t).peer;
      AdvanceAdditive(b, t, Sum(rest));
      FreeFlight(q, rest);
    }
  }

  /** A host ball at the centre moving at (400, 400) px/s, over a 100 ms
      frame: seven sub-steps, ending exactly where one 100 ms step would. */
  lemma FrameScenario(p: Peer)
    requires p.state.ball == Ball(400.0, 250.0, 400.0, 400.0)
    ensures |Schedule(0.1)| == 7
    ensures RunSteps(p, Schedule(0.1)).peer.state.ball == Advance(p.state.ball, 0.1)
    ensures RunSteps(p, Schedule(0.1)).peer.state.ball == Ball(440.0, 290.0, 400.0, 400.0)
  {
    TenthOfASecond();
    var steps := Schedule(0.1);
    assert Sum(steps) == 0.1;
    FreeFlight(p, steps);
  }

  /** A host ball already 25 px past the left side: the next sub-step scores
      for the right player, freezes the ball at the centre and broadcasts
      that; the relaunch then sends it off along a diagonal at launch speed. */
  lemma GoalScenario(p: Peer, rightward: bool, downward: bool)
    requires p.role == Host && p.conn == Open
    requires p.state.ball == Ball(-25.0, 250.0, -400.0, 400.0)
    ensures var o := PhysicsStep(p, StepSize);
            && o.peer.state.score2 == p.state.score2 + 1
            && o.peer.state.score1 == p.state.score1
            && o.peer.state.ball == Centre
            && o.out == [State(o.peer.state)]
            && var l := Launch(o.peer, rightward, downward).peer.state.ball;
               l.x == Centre.x && l.y == Centre.y && Abs(l.dx) == BallSpeed && Abs(l.dy) == BallSpeed
  {
  }

  // ----- the host's broadcast interval -----

  /** An endpoint that is not a host and has not started the broadcast
      interval never starts it, whatever happens, unless it accepts an
      inbound connection and so becomes a host. */
  lemma {:induction false} NoBroadcastWithoutHosting(p: Peer, evs: seq<Event>)
    requires p.role != Host && !p.broadcasting
    requires forall i :: 0 <= i < |evs| ==> !evs[i].Inbound?
    ensures Run(p, evs).peer.role != Host && !Run(p, evs).peer.broadcasting
    ensures Tick(Run(p, evs).peer) == []
    decreases |evs|
  {
    if evs != [] {
      var q := Apply(p, evs[0]).peer;
      assert q.role != Host && !q.broadcasting;
      NoBroadcastWithoutHosting(q, evs[1..]);
    }
  }

  /** A host that later joins another game keeps broadcasting: the interval
      started on the first connection is never cleared and does not look at
      the role, so once the new connection opens the former host, now a
      client, still sends full snapshots on every tick. */
  lemma JoinAfterHosting(now: real)
    ensures var q := Run(InitialPeer(now), [Inbound, Opened(now), Join, Opened(now + 1.0)]).peer;
            && q.role == Client && q.conn == Open && q.state.status == Playing
            && Tick(q) == [State(q.state)]
  {
    var p0 := InitialPeer(now);
    var evs := [Inbound, Opened(now), Join, Opened(now + 1.0)];
    var p1 := Apply(p0, Inbound).peer;
    var p2 := Apply(p1, Opened(now)).peer;
    var p3 := Apply(p2, Join).peer;
    var p4 := Apply(p3, Opened(now + 1.0)).peer;
    assert p1.role == Host;
    assert p2.broadcasting;
    assert p3.broadcasting && p3.role == Client;
    assert Run(p3, [Opened(now + 1.0)]).peer == p4;
    assert Run(p2, [Join, Opened(now + 1.0)]).peer == p4 by {
      assert [Join, Opened(now + 1.0)][1..] == [Opened(now + 1.0)];
    }
    assert Run(p1, evs[1..]).peer == p4 by {
      assert evs[1..][1..] == [Join, Opened(now + 1.0)];
    }
  }
}

=== FILE: substep.dfy ===
/**
 How one animation frame's elapsed time is cut into physics sub-steps: the
 frame time is capped at half a second, then consumed in slices of at most
 16 ms, the last slice taking whatever is left.
 */
module SubStep {
  import opened Pong

  /** Longest frame time integrated at all, in seconds. */
  const MaxFrame: real := 0.5

  function Sum(steps: seq<real>): real {
    if steps == [] then 0.0 else steps[0] + Sum(steps[1..])
  }

  /** A termination measure for consuming `remaining` seconds slice by slice. */
  function Slices(remaining: real): nat {
    if remaining <= 0.0 then 0 else (remaining / StepSize).Floor + 1
  }

  lemma SlicesDecrease(remaining: real)
    requires remaining > 0.0
    ensures Slices(remaining - Min(remaining, StepSize)) < Slices(remaining)
  {
    if remaining > StepSize {
      assert (remaining - StepSize) / StepSize == remaining / StepSize - 1.0;
    }
  }

  /** The slices that consume `remaining` seconds. They are all 16 ms except
      possibly a shorter last one, so there are exactly
      ceiling(remaining / 16 ms) of them, and they add up to `remaining`. */
  function Chunks(remaining: real): (steps: seq<real>)
    ensures remaining <= 0.0 ==> steps == []
    ensures forall i :: 0 <= i < |steps| ==> 0.0 < steps[i] <= StepSize
    ensures forall i :: 0 <= i < |steps| - 1 ==> steps[i] == StepSize
    ensures remaining > 0.0 ==> Sum(steps) == remaining
    ensures remaining > 0.0 ==>
              (|steps| - 1) as real * StepSize < remaining <= |steps| as real * StepSize
    decreases Slices(remaining)
  {
    if remaining <= 0.0 then []
    else
      var step := Min(remaining, StepSize);
      SlicesDecrease(remaining);
      var rest := Chunks(remaining - step);
      assert ([step] + rest)[1..] == rest;
      [step] + rest
  }

  /** The sub-steps run for a frame that took `dt` seconds. */
  function Schedule(dt: real): (steps: seq<real>)
    ensures dt <= 0.0 ==> steps == []
    ensures forall i :: 0 <= i < |steps| ==> 0.0 < steps[i] <= StepSize
    ensures dt > 0.0 ==> Sum(steps) == Min(dt, MaxFrame)
    ensures |steps| <= 32
  {
    Chunks(if dt > MaxFrame then MaxFrame else dt)
  }

  /** A frame of 100 ms runs as six full sub-steps and a short seventh. */
  lemma TenthOfASecond()
    ensures |Schedule(0.1)| == 7
    ensures Sum(Schedule(0.1)) == 0.1
  {
  }
}

=== FILE: sync.dfy ===
/**
 The synchronisation protocol: what an endpoint does with an incoming
 message (the host takes the client's paddle, the client reconciles its
 prediction with the host's snapshot), and the two outbound paths (the
 throttled input report and the full-state broadcast).
 */
module Sync {
  import opened Pong

  /** Above this distance (compared squared) the client snaps its ball. */
  const SnapThreshold: real := 150.0
  /** Share of the snapshot taken per reconciliation for the ball position. */
  const BallBlend: real := 0.1
  /** Share of the snapshot taken per reconciliation for the host's paddle. */
  const PaddleBlend: real := 0.2
  /** Minimum time between two input reports, in milliseconds. */
  const InputInterval: int := 33

  /** Linear interpolation: `amt` of the way from `start` to `end`. */
  function Lerp(start: real, end: real, amt: real): (r: real)
    ensures amt == 0.0 ==> r == start
    ensures amt == 1.0 ==> r == end
    ensures r - end == (1.0 - amt) * (start - end)
  {
    (1.0 - amt) * start + amt * end
  }

  /** For a factor in [0, 1] the interpolant lies between the endpoints. */
  lemma LerpBetween(start: real, end: real, amt: real)
    requires 0.0 <= amt <= 1.0
    ensures var r := Lerp(start, end, amt);
            (start <= r <= end) || (end <= r <= start)
  {
    var d := end - start;
    assert Lerp(start, end, amt) == start + amt * d;
    assert (1.0 - amt) * d == d - amt * d;
    if start <= end {
      ProductNonNegative(amt, d);
      ProductNonNegative(1.0 - amt, d);
    } else {
      ProductNonNegative(amt, -d);
      ProductNonNegative(1.0 - amt, -d);
    }
  }

  lemma ProductNonNegative(a: real, b: real)
    requires a >= 0.0 && b >= 0.0
    ensures a * b >= 0.0
  {
  }

  lemma SquareNonNegative(a: real)
    ensures a * a >= 0.0
  {
    if a < 0.0 {
      ProductNonNegative(-a, -a);
    } else {
      ProductNonNegative(a, a);
    }
  }

  function DistSq(a: Ball, b: Ball): real {
    (a.x - b.x) * (a.x - b.x) + (a.y - b.y) * (a.y - b.y)
  }

  /** Merge a host snapshot into the client's predicted state. */
  function Reconcile(local: GameState, snap: GameState): (r: GameState)
    // a frozen ball, or one predicted too far off, is taken verbatim
    ensures Frozen(snap.ball) ==> r.ball.x == snap.ball.x && r.ball.y == snap.ball.y
    ensures !Frozen(snap.ball) && DistSq(local.ball, snap.ball) > SnapThreshold * SnapThreshold ==>
              r.ball.x == snap.ball.x && r.ball.y == snap.ball.y
    // otherwise the ball moves a tenth of the way to the snapshot
    ensures !Frozen(snap.ball) && DistSq(local.ball, snap.ball) <= SnapThreshold * SnapThreshold ==>
              && r.ball.x == (1.0 - BallBlend) * local.ball.x + BallBlend * snap.ball.x
              && r.ball.y == (1.0 - BallBlend) * local.ball.y + BallBlend * snap.ball.y
    // velocity and scores are the host's; the host's paddle is smoothed
    ensures r.ball.dx == snap.ball.dx && r.ball.dy == snap.ball.dy
    ensures r.score1 == snap.score1 && r.score2 == snap.score2
    ensures r.paddle1Y == (1.0 - PaddleBlend) * local.paddle1Y + PaddleBlend * snap.paddle1Y
    // the client's own paddle and the status are never taken from the host
    ensures r.paddle2Y == local.paddle2Y && r.status == local.status
  {
    var b := local.ball;
    var sb := snap.ball;
    var snapped := Frozen(sb) || DistSq(b, sb) > SnapThreshold * SnapThreshold;
    var x := if snapped then sb.x else Lerp(b.x, sb.x, BallBlend);
    var y := if snapped then sb.y else Lerp(b.y, sb.y, BallBlend);
    local.(
      ball := Ball(x, y, sb.dx, sb.dy),
      paddle1Y := Lerp(local.paddle1Y, snap.paddle1Y, PaddleBlend),
      score1 := snap.score1,
      score2 := snap.score2)
  }

  /** Reconciliation never moves the client's ball away from the snapshot:
      the distance drops to zero on a snap and to 90% on a blend, and the
      host's paddle closes 20% of its gap. The factors are derived from the
      blends: 0.9 = 1 - BallBlend, 0.81 = (1 - BallBlend)^2 and
      0.8 = 1 - PaddleBlend. */
  lemma ReconcileConverges(local: GameState, snap: GameState)
    ensures var r := Reconcile(local, snap);
            && (DistSq(r.ball, snap.ball) == 0.0 || DistSq(r.ball, snap.ball) == 0.81 * DistSq(local.ball, snap.ball))
            && DistSq(r.ball, snap.ball) <= DistSq(local.ball, snap.ball)
            && r.paddle1Y - snap.paddle1Y == 0.8 * (local.paddle1Y - snap.paddle1Y)
  {
    var r := Reconcile(local, snap);
    var ex, ey := local.ball.x - snap.ball.x, local.ball.y - snap.ball.y;
    SquareNonNegative(ex);
    SquareNonNegative(ey);
    if !Frozen(snap.ball) && DistSq(local.ball, snap.ball) <= SnapThreshold * SnapThreshold {
      assert r.ball.x - snap.ball.x == 0.9 * ex;
      assert r.ball.y - snap.ball.y == 0.9 * ey;
      ScaledSquare(ex);
      ScaledSquare(ey);
    } else {
      DistSqSame(r.ball, snap.ball);
    }
  }

  lemma ScaledSquare(e: real)
    ensures (0.9 * e) * (0.9 * e) == 0.81 * (e * e)
  {
  }

  /** Two balls at the same position are at distance zero. */
  lemma DistSqSame(a: Ball, b: Ball)
    requires a.x == b.x && a.y == b.y
    ensures DistSq(a, b) == 0.0
  {
  }

  /** What the snapshot says about the client's own paddle, and the host's
      status, have no effect on the client. */
  lemma ReconcileIgnoresClientFields(local: GameState, snap: GameState, paddle2Y: real, status: Status)
    ensures Reconcile(local, snap.(paddle2Y := paddle2Y, status := status)) == Reconcile(local, snap)
  {
  }

  /** Merging a valid snapshot into a valid prediction keeps it valid. */
  lemma ReconcilePreservesValid(local: GameState, snap: GameState)
    requires Valid(local) && Valid(snap)
    ensures Valid(Reconcile(local, snap))
  {
  }

  /** An incoming message. The host only listens to input reports (the
      client's paddle); the client only listens to snapshots. */
  function HandleData(s: GameState, role: Role, m: Message): (r: GameState)
    // the host is the sole author of ball, scores and its own paddle
    ensures role == Host ==>
              && r.ball == s.ball && r.score1 == s.score1 && r.score2 == s.score2
              && r.paddle1Y == s.paddle1Y
    ensures role == Host && m.Input? ==> r.paddle2Y == m.y
    // the client is the sole author of its own paddle
    ensures role != Host ==> r.paddle2Y == s.paddle2Y
    // a message of the other kind is ignored altogether
    ensures role == Host && m.State? ==> r == s
    ensures role != Host && m.Input? ==> r == s
    ensures role != Host && m.State? ==> r == Reconcile(s, m.snapshot)
    ensures r.status == s.status
  {
    if role == Host then
      if m.Input? then s.(paddle2Y := m.y) else s
    else
      if m.State? then Reconcile(s, m.snapshot) else s
  }

  lemma HandleDataPreservesValid(s: GameState, role: Role, m: Message)
    requires Valid(s) && ValidMessage(m)
    ensures Valid(HandleData(s, role, m))
  {
  }

  /** Report the local paddle, at most once per 33 ms. A report that passes
      the gate restarts it even when the connection cannot carry it. */
  function SendInput(p: Peer, y: real, now: int): (o: Outcome)
    ensures o.peer.(lastInputTime := p.lastInputTime) == p
    ensures now - p.lastInputTime < InputInterval ==> o.peer == p && o.out == []
    ensures now - p.lastInputTime >= InputInterval ==> o.peer.lastInputTime == now
    ensures o.peer.lastInputTime >= p.lastInputTime
    ensures o.out != [] <==> now - p.lastInputTime >= InputInterval && p.conn == Open
    ensures o.out != [] ==> o.out == [Input(y)]
  {
    if now - p.lastInputTime < InputInterval then Outcome(p, [])
    else
      var q := p.(lastInputTime := now);
      Outcome(q, if p.conn == Open then [Input(y)] else [])
  }

  /** Send the whole game state, if the connection is open. */
  function SendGameState(p: Peer): (out: seq<Message>)
    ensures out != [] <==> p.conn == Open
    ensures out != [] ==> out == [State(p.state)]
  {
    if p.conn == Open then [State(p.state)] else []
  }
}
